=== FILE: README.md ===
# Armature-to-sculpt-mesh conversion: bookkeeping model

A Dafny model of the bookkeeping inside the Blender add-on's convert operator,
which turns an armature into a mesh for sculpting in one of two ways:

- **Skin**: `convert_skin` builds parallel vertex / radius lists and an edge
  list, one vertex pair and one edge per bone. The operator creates those edges
  in a bmesh and silently skips the ones bmesh rejects. It then writes the
  radii into the skin-vertex layer.
- **Envelope**: `convert_envelope` requests one UV sphere per distinct joint
  and one cone per bone. A joint is the `(x, y, z, r)` tuple of a bone end,
  matched exactly against the `coords` list.

The armature remembers the object it was last converted to in `envelope_ID`.
An update either swaps new geometry into that object or, when the object is
gone, creates a new one. The panel offers the update buttons only while the
link names a live object.

Positions and radii are type parameters compared by exact equality. Nothing
here does floating-point work. Primitive requests are recorded as tagged
entries (`Sphere(key)`, `Cone(bone)`) of an `obs` list. Scene objects are
modelled as two sets of names, the scene's and the active collection's.

Modules, one per concern of `Skin_Sculp_operator.py`:

- `Armature` (armature.dfy): bones, joint keys, the tail-then-head key order.
- `SkinGraph` (skin_graph.dfy): `convert_skin`.
- `Envelope` (envelope.dfy): the dedup / cone loop of `convert_envelope`.
- `SkinMesh` (skin_mesh.dfy): edge creation with duplicate skipping, and the radius write-back.
- `ConversionLink` (conversion_link.dfy): the `envelope_ID` branching of the operator and the panel guard.
- `Sequences`, `Wrappers`: helpers for duplicate-free sequences and first-occurrence order, and a `Result` type.

Behaviour the model takes from the code, where a reader might expect otherwise:

- A skin update whose linked object is gone does not re-link and does not warn (lines 339-344).
  Only the envelope path re-links and warns (lines 287-289).
- The envelope update looks the link up in the active collection (line 276).
  The skin update (line 328) and the panel (lines 414, 427) look it up in the scene.
- Each skin edge is written as `(2k+1, 2k)`, tail index first (line 181).
- Edges are created before the weld (`RemoveDoubles`, line 361), not after it.
  On `convert_skin`'s output no edge is ever skipped.

## Model

| member | source | states |
|---|---|---|
| Armature.Endpoints | Skin_Sculp_operator.py:104-120 | the joint keys in the order the loop checks them: for bone k, its tail key at 2k and its head key at 2k+1 |
| SkinGraph.ConvertSkin | Skin_Sculp_operator.py:159-183 | for n bones: 2n vertices, 2n radii, n edges; vertex 2k is bone k's head and 2k+1 its tail; the radii match those vertices one to one; edge k is (2k+1, 2k) |
| SkinGraph.ConvertSkinWellFormed | Skin_Sculp_operator.py:175-181 | radii stay aligned with vertices; every edge index is below the vertex count; no edge is a self-loop |
| SkinGraph.ConvertSkinRoundTrip | Skin_Sculp_operator.py:169-178 | the bones can be read back from the vertex and radius pairs, so nothing is lost or reordered |
| Envelope.PlanEnvelope | Skin_Sculp_operator.py:104-131 | after the loop, `coords` has no duplicates and holds exactly the bones' endpoint keys; the spheres requested in `obs` are exactly `coords`, in order; the cones are exactly the bones, in order |
| Envelope.VisitBoneRequests | Skin_Sculp_operator.py:104-131 | one iteration appends, after the earlier requests, the tail sphere if its key is unseen, then the head sphere if its key is still unseen (and differs from the tail's), then the bone's cone, unconditionally |
| Envelope.PlanEnvelopeStartsWithTailSphere | Skin_Sculp_operator.py:104-116 | with at least one bone, `obs[0]` is the first bone's tail sphere: the object the primitives are joined into (lines 141-143) |
| Envelope.PlanEnvelopeExtends | Skin_Sculp_operator.py:104-131 | later bones only append: the requests and `coords` after the first n bones are prefixes of the final ones |
| Envelope.RequestSphereTracks | Skin_Sculp_operator.py:110-116 | the lemma on `RequestSphere`, the `if coord not in coords` step: checking one key keeps the loop invariant, so the key is in `coords` afterwards with exactly one sphere request, `coords` stays duplicate-free and the sphere requests still equal `coords` |
| Envelope.PlanEnvelopeCounts | Skin_Sculp_operator.py:110-131 | one cone per bone; the number of primitives requested is the number of distinct joints plus the number of bones |
| Envelope.PlanEnvelopeOneSpherePerJoint | Skin_Sculp_operator.py:110-128 | each endpoint key gets exactly one sphere request; any other key gets none |
| Envelope.SharedJointOneSphere | Skin_Sculp_operator.py:104-128 | when one bone's tail key equals another bone's head key exactly, that joint gets a single sphere |
| Envelope.RequestSphereOrder | Skin_Sculp_operator.py:110-111 | the lemma on `RequestSphere`, the `if coord not in coords` step, on order: a key is appended to `coords` only when unseen, so `coords` stays in first-occurrence order of the keys checked so far |
| Envelope.PlanEnvelopeFirstOccurrence | Skin_Sculp_operator.py:104-128 | `coords` lists every distinct key once, ordered by first occurrence, with each bone's tail checked before its head |
| SkinMesh.AddEdges | Skin_Sculp_operator.py:301-309 | fails (the uncaught IndexError) exactly when a request names a missing vertex, and reports the first such request; otherwise the created edges hold no self-loop and no two edges joining the same vertices; there are at most as many edges as requests, each one requested; every non-loop request is joined; the created edges are exactly the requests, in request order, that are neither a self-loop nor join the same two vertices as an earlier request (`FirstRequests`); a duplicate-free request list is created unchanged |
| SkinMesh.FirstRequestsEdgeSet | Skin_Sculp_operator.py:305-309 | keeping only the first request for each vertex pair, and no self-loop, yields an edge set bmesh can hold |
| SkinMesh.FirstRequestsCovers | Skin_Sculp_operator.py:305-309 | every skipped request that is not a self-loop joins a pair an accepted edge already joins, so skipping loses no connection |
| SkinMesh.FirstRequestsOfEdgeSet | Skin_Sculp_operator.py:305-309 | when no request is a self-loop or repeats a pair, none is skipped |
| SkinMesh.ConvertSkinEdgeSet | Skin_Sculp_operator.py:181 | `convert_skin`'s edges are in range and pairwise distinct as unordered pairs, so the duplicate-edge handler never fires on them |
| SkinMesh.WriteRadii | Skin_Sculp_operator.py:347-358 | the layer keeps its length; entry i becomes (radius[i], radius[i]) when i is below both lengths; entries past the radius list are untouched; nothing is written out of bounds |
| SkinMesh.BuildSkinMesh | Skin_Sculp_operator.py:296-313 | the skin branch's mesh before welding: all of `convert_skin`'s edges are created; bone k's head and tail vertices carry its head and tail radii in the skin layer |
| ConversionLink.Convert | Skin_Sculp_operator.py:254-344 | creating sets the link to the new object; an update whose target is found keeps the link and swaps data in place; an envelope update whose target is missing re-links to the new object and warns; a skin update whose target is missing creates an object, keeps the old link and does not warn; both missing-target branches add the new object to the scene; a warning happens only on the envelope path; a valid scene stays valid |
| ConversionLink.ConvertChecked | Skin_Sculp_operator.py:273-289 | corrected envelope lookup, done before converting: the scene stays valid, and every request except a skin update with a dangling link leaves the update button offered |
| ConversionLink.ConvertAgreesUnlessSelfNamed | Skin_Sculp_operator.py:273-289 | the code as written and the corrected lookup agree unless the link already names the object being created |
| ConversionLink.ConvertKeepsLinkLive | Skin_Sculp_operator.py:254-344 | as written, every request but a skin update with a dangling link leaves the link naming a live object, so the update button is offered, unless the link already names the object being created |
| ConversionLink.EnvelopeUpdateDiscardsResult | Skin_Sculp_operator.py:273-283 | in every valid scene, a stale link that equals the new object's name: the update swaps the new object into itself and drops it, with no warning, and the link then names nothing |
| ConversionLink.UpdateOffered | Skin_Sculp_operator.py:414-427 | the update buttons are offered when the link is non-empty and names a scene object; in a valid scene, where no object is named "", exactly when the link is live |
| ConversionLink.SkinFallbackLeavesLinkStale | Skin_Sculp_operator.py:339-344 | after a skin update with a dangling link, the update button comes back only if the new object happens to get the old name |
| ConversionLink.OfferedSkinUpdateSwaps | Skin_Sculp_operator.py:414 | whenever the skin update button is offered, the skin update swaps in place |
| ConversionLink.OfferedEnvelopeUpdateOutsideCollection | Skin_Sculp_operator.py:427 | an offered envelope update of an object that is not in the active collection creates a new object and warns |

## Left out

- `cone_between` (lines 61-83): float trigonometry and Euler writes on the new object. A cone request is recorded as `Cone(bone)`. A zero-length bone, where `acos(dz/dist)` divides by zero, is therefore not modelled.
- `RemoveDoubles` (lines 86-93, 361): the weld is bmesh's `remove_doubles`, whose algorithm is not part of this model. The model stops at the mesh before welding.
- Joining the primitives, `transform_apply`, `origin_set` and saving and restoring the cursor (lines 133-155, 250-251, 291, 319, 337): host scene-graph side effects.
- Modifier set-up (bevel, subsurf, skin) and the property ranges (lines 35-55, 261-268, 324-326, 365-366): declarative host configuration.
- `OBJECT_OT_AddEnvelope`, `poll`, mode switching, panel layout and registration (lines 190-206, 239-241, 378-471): UI plumbing. Of the panel, only the update-button guard is modelled.
- Adding the armature location to the bone positions (lines 105, 117): float arithmetic. The bones given to `PlanEnvelope` stand for positions with that offset already added. In floats, two different local positions can round to the same sum; the source then merges their spheres, and the model sees them as one key only if the positions it is given are already equal.
- Keys compared by plain equality. In the source every key tuple is built from freshly read floats (lines 106-108, 118-120), so the identity shortcut of Python's `in` never applies between two keys, and a key holding a NaN never equals an earlier key: such a joint gets a sphere every time it is met. In the model equality is reflexive, so two equal-looking NaN keys would share one sphere.
- Convert: an armature with no bones on the envelope path is not modelled. There `obs` stays empty, nothing is joined, and `convert_envelope` returns the armature itself (lines 145, 156). On create (line 258), `arm.envelope_ID` becomes the armature's own name, and the bevel modifier set-up on the armature fails (line 261). On an update whose target is missing, lines 288-289 warn and set `arm.envelope_ID` to the armature's own name. The operator then finishes with the armature linked to itself, and the panel offers both update buttons (lines 414, 427). The model assumes the conversion produced a new object distinct from the armature.
- Convert: only object names and the link are modelled. The geometry that is swapped in or freed is not.
- AddEdges: indices are natural numbers. Python's negative indexing into `bm.verts` cannot arise from `convert_skin`.
- WriteRadii: a skin-vertex entry is modelled by its radius pair only. Adding the skin layer when it is missing (lines 350-352) is the host's job.

## Findings

| source | as written | input that shows it | evidently intended | confidence | as-written member | corrected member |
|---|---|---|---|---|---|---|
| Skin_Sculp_operator.py:273-283 | the envelope update converts first, then looks `envelope_ID` up in the active collection, which by then holds the new object | the linked object "Sphere" was deleted, and the new joined object, which keeps the name of the first tail sphere `obs[0]`, is named "Sphere" too: it is taken for the old object, unlinked and its mesh removed, with no warning | look the link up before converting, so a dangling link falls back to create-new with the warning | low, not executed (depends on the host reusing the freed name) | ConversionLink.EnvelopeUpdateDiscardsResult | ConversionLink.ConvertChecked |

=== FILE: armature.dfy ===
/**
 * The armature data the converters read: an ordered list of bones, each with a
 * head and a tail position and a radius at each end.  Positions and radii are
 * abstract types compared by exact equality, standing for the float vectors and
 * floats of the host.
 */
module Armature {

  /** One bone as read from `arm.data.bones`, in the armature's own order. */
  datatype Bone<P, R> = Bone(head: P, tail: P, headRadius: R, tailRadius: R)
  {
    /** The `(x, y, z, r)` tuple the envelope converter builds for the tail. */
    function TailKey(): JointKey<P, R> { JointKey(tail, tailRadius) }

    /** The `(x, y, z, r)` tuple the envelope converter builds for the head. */
    function HeadKey(): JointKey<P, R> { JointKey(head, headRadius) }
  }

  /** A joint as the envelope converter compares it: position and radius together. */
  datatype JointKey<P, R> = JointKey(pos: P, radius: R)

  /** Every endpoint key of `bones` in visiting order: tail, then head, bone by bone. */
  function Endpoints<P, R>(bones: seq<Bone<P, R>>): (ks: seq<JointKey<P, R>>)
    ensures |ks| == 2 * |bones|
    ensures forall k :: 0 <= k < |bones| ==> ks[2 * k] == bones[k].TailKey() && ks[2 * k + 1] == bones[k].HeadKey()
  {
    if |bones| == 0 then []
    else Endpoints(bones[..|bones| - 1]) + [bones[|bones| - 1].TailKey(), bones[|bones| - 1].HeadKey()]
  }
}

=== FILE: conversion_link.dfy ===
/**
 * The `envelope_ID` bookkeeping of the convert operator and the panel guard
 * that offers the update buttons.  The armature stores the name of the object
 * it was last converted to ("" for none); the link is a plain name and may
 * dangle once that object is deleted.
 */
module ConversionLink {

  /** Object names in the scene and in the active collection, where new objects are linked. */
  datatype World = World(scene: set<string>, collection: set<string>)

  /** Host invariant: the active collection belongs to the scene, and no object is named "". */
  predicate Valid(w: World)
  {
    w.collection <= w.scene && "" !in w.scene
  }

  /** The operator's `envelope` property chooses the path, `update` the mode. */
  datatype Path = EnvelopePath | SkinPath
  datatype Request = Request(path: Path, update: bool)

  /** What happened to the scene: a new object, or new geometry swapped into the linked one. */
  datatype Action = CreatedNew(name: string) | Swapped(target: string)

  /** The armature's `envelope_ID` afterwards, the scene afterwards, the action, and whether a warning was reported. */
  datatype Outcome = Outcome(link: string, world: World, action: Action, warned: bool)

  /** A new object linked into the active collection (and so into the scene). */
  function AddObject(w: World, name: string): (w': World)
    ensures name in w'.collection && name in w'.scene
    ensures w'.scene - {name} == w.scene - {name} && w'.collection - {name} == w.collection - {name}
  {
    World(w.scene + {name}, w.collection + {name})
  }

  /**
   * The panel shows an update button only when the link is set and names an
   * object of the scene; since no object is named "", in a valid scene this is
   * just liveness of the link.
   */
  predicate UpdateOffered(w: World, link: string)
    ensures Valid(w) ==> (UpdateOffered(w, link) <==> link in w.scene)
  {
    link != "" && link in w.scene
  }

  /**
   * The operator's branching as written.  `newName` is the name the host gives
   * the object a conversion creates.  The envelope path converts first and then
   * looks the link up in the active collection, which by then holds the new
   * object; the skin path looks the link up in the scene before creating anything.
   */
  function Convert(w: World, link: string, req: Request, newName: string): (o: Outcome)
    ensures !req.update ==> o.link == newName && o.action == CreatedNew(newName) && !o.warned
    ensures !req.update ==> o.world == AddObject(w, newName)
    ensures req.update && req.path == EnvelopePath && link in w.collection ==>
              o.link == link && o.action == Swapped(link) && !o.warned && o.world == w
    ensures req.update && req.path == EnvelopePath && link !in w.collection && link != newName ==>
              o.link == newName && o.action == CreatedNew(newName) && o.warned && o.world == AddObject(w, newName)
    ensures req.update && req.path == SkinPath && link in w.scene ==>
              o.link == link && o.action == Swapped(link) && !o.warned && o.world == w
    ensures req.update && req.path == SkinPath && link !in w.scene ==>
              o.link == link && o.action == CreatedNew(newName) && !o.warned && o.world == AddObject(w, newName)
    ensures o.warned <==> req.update && req.path == EnvelopePath && link !in AddObject(w, newName).collection
    ensures Valid(w) && newName != "" ==> Valid(o.world)
  {
    match req.path
    case EnvelopePath =>
      var converted := AddObject(w, newName);
      if !req.update then Outcome(newName, converted, CreatedNew(newName), false)
      else if link in converted.collection then Outcome(link, w, Swapped(link), false)
      else Outcome(newName, converted, CreatedNew(newName), true)
    case SkinPath =>
      if !req.update then Outcome(newName, AddObject(w, newName), CreatedNew(newName), false)
      else if link in w.scene then Outcome(link, w, Swapped(link), false)
      else Outcome(link, AddObject(w, newName), CreatedNew(newName), false)
  }

  /** The host's naming: a new object gets a non-empty name no object of the scene has. */
  predicate FreshName(w: World, name: string)
  {
    name != "" && name !in w.scene
  }

  /**
   * The branching with the envelope path's lookup done before converting, so
   * that the object the conversion itself creates can never be taken for the
   * linked one.  Every request but a skin update with a dangling link leaves the
   * armature linked to a live object, and the scene stays valid.
   */
  function ConvertChecked(w: World, link: string, req: Request, newName: string): (o: Outcome)
    ensures Valid(w) && FreshName(w, newName) ==> Valid(o.world)
    ensures Valid(w) && FreshName(w, newName) && !(req == Request(SkinPath, true) && link !in w.scene) ==>
              UpdateOffered(o.world, o.link)
    ensures req.update && link !in (if req.path == EnvelopePath then w.collection else w.scene) ==>
              o.action == CreatedNew(newName) && o.world == AddObject(w, newName)
    ensures o.warned <==> req.update && req.path == EnvelopePath && link !in w.collection
  {
    match req.path
    case EnvelopePath =>
      if !req.update then Outcome(newName, AddObject(w, newName), CreatedNew(newName), false)
      else if link in w.collection then Outcome(link, w, Swapped(link), false)
      else Outcome(newName, AddObject(w, newName), CreatedNew(newName), true)
    case SkinPath =>
      if !req.update then Outcome(newName, AddObject(w, newName), CreatedNew(newName), false)
      else if link in w.scene then Outcome(link, w, Swapped(link), false)
      else Outcome(link, AddObject(w, newName), CreatedNew(newName), false)
  }

  /** The two differ only when the link already names the object the envelope conversion is about to create. */
  lemma ConvertAgreesUnlessSelfNamed(w: World, link: string, req: Request, newName: string)
    requires link != newName
    ensures Convert(w, link, req, newName) == ConvertChecked(w, link, req, newName)
  {
  }

  /**
   * As written, every request but a skin update with a dangling link leaves the
   * update button offered, unless the link already names the new object.
   */
  lemma ConvertKeepsLinkLive(w: World, link: string, req: Request, newName: string)
    requires Valid(w) && FreshName(w, newName) && link != newName
    requires !(req == Request(SkinPath, true) && link !in w.scene)
    ensures var o := Convert(w, link, req, newName);
            UpdateOffered(o.world, o.link)
  {
    ConvertAgreesUnlessSelfNamed(w, link, req, newName);
  }

  /**
   * As written, a stale link equal to the new object's name makes an envelope
   * update find its own result, unlink it and drop its mesh, with no warning:
   * afterwards the link names nothing in the scene.
   */
  lemma EnvelopeUpdateDiscardsResult(w: World, link: string)
    requires Valid(w) && FreshName(w, link)
    ensures var o := Convert(w, link, Request(EnvelopePath, true), link);
            && o.action == Swapped(link) && !o.warned
            && o.world == w && !UpdateOffered(o.world, o.link)
  {
  }

  /** The smallest instance: an empty scene, a link to a deleted "Sphere", and a new object named "Sphere". */
  lemma EnvelopeUpdateDiscardsResultExample()
    ensures var o := Convert(World({}, {}), "Sphere", Request(EnvelopePath, true), "Sphere");
            o.action == Swapped("Sphere") && !o.warned && !UpdateOffered(o.world, o.link)
  {
    EnvelopeUpdateDiscardsResult(World({}, {}), "Sphere");
  }

  /** After a skin update with a dangling link the button comes back only if the new object happens to take the old name. */
  lemma SkinFallbackLeavesLinkStale(w: World, link: string, newName: string)
    requires Valid(w) && FreshName(w, newName) && link !in w.scene
    ensures var o := Convert(w, link, Request(SkinPath, true), newName);
            UpdateOffered(o.world, o.link) <==> link == newName
  {
  }

  /** The skin update checks the same set as the panel, so an offered skin update always swaps in place. */
  lemma OfferedSkinUpdateSwaps(w: World, link: string, newName: string)
    requires UpdateOffered(w, link)
    ensures Convert(w, link, Request(SkinPath, true), newName).action == Swapped(link)
  {
  }

  /**
   * The envelope update checks the active collection while the panel checks the
   * scene: an offered update of an object outside the active collection creates
   * a new object and warns.
   */
  lemma OfferedEnvelopeUpdateOutsideCollection(w: World, link: string, newName: string)
    requires UpdateOffered(w, link) && link !in w.collection && link != newName
    ensures var o := Convert(w, link, Request(EnvelopePath, true), newName);
            o.action == CreatedNew(newName) && o.warned && o.link == newName
  {
  }
}

=== FILE: envelope.dfy ===
/**
 * The bookkeeping loop of `convert_envelope`: which spheres and cones are
 * requested, and the `coords` list of joints already given a sphere.  The
 * primitive requests are recorded, in order, as the entries of `obs`.
 */
module Envelope {
  import opened Armature
  import opened Sequences

  /** One primitive request: a UV sphere at a joint, or the cone along a bone. */
  datatype Primitive<P, R> = Sphere(key: JointKey<P, R>) | Cone(bone: Bone<P, R>)

  /** The loop's two accumulators: joints seen so far and primitives requested so far. */
  datatype Plan<P, R> = Plan(coords: seq<JointKey<P, R>>, obs: seq<Primitive<P, R>>)

  /** The sphere keys of `obs`, in request order. */
  function Spheres<P, R>(obs: seq<Primitive<P, R>>): seq<JointKey<P, R>>
  {
    if |obs| == 0 then []
    else Spheres(obs[..|obs| - 1]) + (if obs[|obs| - 1].Sphere? then [obs[|obs| - 1].key] else [])
  }

  /** The cone bones of `obs`, in request order. */
  function Cones<P, R>(obs: seq<Primitive<P, R>>): seq<Bone<P, R>>
  {
    if |obs| == 0 then []
    else Cones(obs[..|obs| - 1]) + (if obs[|obs| - 1].Cone? then [obs[|obs| - 1].bone] else [])
  }

  /** `if coord not in coords`: append the key and request its sphere, else do nothing. */
  function RequestSphere<P(==), R(==)>(plan: Plan<P, R>, key: JointKey<P, R>): Plan<P, R>
  {
    if key in plan.coords then plan
    else Plan(plan.coords + [key], plan.obs + [Sphere(key)])
  }

  /** The sphere requests a bone adds to `coords`-so-far: its tail if unseen, then its head if still unseen. */
  function NewJoints<P(==), R(==)>(coords: seq<JointKey<P, R>>, bone: Bone<P, R>): seq<JointKey<P, R>>
  {
    (if bone.TailKey() in coords then [] else [bone.TailKey()])
    + (if bone.HeadKey() in coords || bone.HeadKey() == bone.TailKey() then [] else [bone.HeadKey()])
  }

  function SphereRequests<P, R>(keys: seq<JointKey<P, R>>): (ps: seq<Primitive<P, R>>)
    ensures |ps| == |keys| && forall i :: 0 <= i < |keys| ==> ps[i] == Sphere(keys[i])
  {
    if |keys| == 0 then [] else [Sphere(keys[0])] + SphereRequests(keys[1..])
  }

  /** One iteration of the loop: tail sphere, head sphere, then the cone. */
  function VisitBone<P(==), R(==)>(plan: Plan<P, R>, bone: Bone<P, R>): Plan<P, R>
  {
    var afterTail := RequestSphere(plan, bone.TailKey());
    var afterHead := RequestSphere(afterTail, bone.HeadKey());
    Plan(afterHead.coords, afterHead.obs + [Cone(bone)])
  }

  /**
   * What the accumulators record after the joint keys `ks` were checked and the
   * cones of `cs` requested: `coords` holds each key of `ks` once, the spheres of
   * `obs` are exactly `coords` and its cones exactly `cs`.
   */
  predicate Tracks<P(==), R(==)>(plan: Plan<P, R>, ks: seq<JointKey<P, R>>, cs: seq<Bone<P, R>>)
  {
    && NoDuplicates(plan.coords)
    && (forall i :: 0 <= i < |plan.coords| ==> plan.coords[i] in ks)
    && (forall i :: 0 <= i < |ks| ==> ks[i] in plan.coords)
    && Spheres(plan.obs) == plan.coords
    && Cones(plan.obs) == cs
  }

  /** The whole loop over `arm.data.bones`, starting from empty `coords` and `obs`. */
  function PlanEnvelope<P(==), R(==)>(bones: seq<Bone<P, R>>): (plan: Plan<P, R>)
    ensures Tracks(plan, Endpoints(bones), bones)
  {
    if |bones| == 0 then Plan([], [])
    else
      var prefix := bones[..|bones| - 1];
      var last := bones[|bones| - 1];
      VisitBoneTracks(PlanEnvelope(prefix), Endpoints(prefix), prefix, last);
      assert prefix + [last] == bones;
      VisitBone(PlanEnvelope(prefix), last)
  }

  /**
   * One iteration of the loop appends, after the earlier requests, the tail
   * sphere if its key is unseen, then the head sphere if its key is still
   * unseen, then the bone's cone, unconditionally.
   */
  lemma VisitBoneRequests<P, R>(plan: Plan<P, R>, bone: Bone<P, R>)
    ensures VisitBone(plan, bone).coords == plan.coords + NewJoints(plan.coords, bone)
    ensures VisitBone(plan, bone).obs == plan.obs + SphereRequests(NewJoints(plan.coords, bone)) + [Cone(bone)]
  {
  }

  lemma SpheresAppend<P, R>(obs: seq<Primitive<P, R>>, p: Primitive<P, R>)
    ensures Spheres(obs + [p]) == Spheres(obs) + (if p.Sphere? then [p.key] else [])
  {
    assert (obs + [p])[..|obs|] == obs;
  }

  lemma ConesAppend<P, R>(obs: seq<Primitive<P, R>>, p: Primitive<P, R>)
    ensures Cones(obs + [p]) == Cones(obs) + (if p.Cone? then [p.bone] else [])
  {
    assert (obs + [p])[..|obs|] == obs;
  }

  lemma RequestSphereTracks<P, R>(plan: Plan<P, R>, ks: seq<JointKey<P, R>>, cs: seq<Bone<P, R>>, key: JointKey<P, R>)
    requires Tracks(plan, ks, cs)
    ensures Tracks(RequestSphere(plan, key), ks + [key], cs)
  {
    if key !in plan.coords {
      SpheresAppend(plan.obs, Sphere(key));
      ConesAppend(plan.obs, Sphere(key));
    }
  }

  lemma VisitBoneTracks<P, R>(plan: Plan<P, R>, ks: seq<JointKey<P, R>>, cs: seq<Bone<P, R>>, bone: Bone<P, R>)
    requires Tracks(plan, ks, cs)
    ensures Tracks(VisitBone(plan, bone), ks + [bone.TailKey(), bone.HeadKey()], cs + [bone])
  {
    var afterTail := RequestSphere(plan, bone.TailKey());
    RequestSphereTracks(plan, ks, cs, bone.TailKey());
    RequestSphereTracks(afterTail, ks + [bone.TailKey()], cs, bone.HeadKey());
    assert ks + [bone.TailKey()] + [bone.HeadKey()] == ks + [bone.TailKey(), bone.HeadKey()];
    var afterHead := RequestSphere(afterTail, bone.HeadKey());
    SpheresAppend(afterHead.obs, Cone(bone));
    ConesAppend(afterHead.obs, Cone(bone));
  }

  /** Every request is a sphere or a cone, so the two projections partition `obs`. */
  lemma {:induction false} SpheresConesPartition<P, R>(obs: seq<Primitive<P, R>>)
    ensures |Spheres(obs)| + |Cones(obs)| == |obs|
  {
    if |obs| > 0 {
      SpheresConesPartition(obs[..|obs| - 1]);
    }
  }

  /** A sphere occurs in `obs` exactly as often as its key occurs among the sphere keys. */
  lemma {:induction false} SphereMultiplicity<P, R>(obs: seq<Primitive<P, R>>, key: JointKey<P, R>)
    ensures multiset(obs)[Sphere(key)] == multiset(Spheres(obs))[key]
  {
    if |obs| > 0 {
      var prefix := obs[..|obs| - 1];
      SphereMultiplicity(prefix, key);
      assert obs == prefix + [obs[|obs| - 1]];
    }
  }

  /**
   * The counts of the loop: one cone per bone, and as many primitives in all as
   * there are distinct joints plus bones.
   */
  lemma PlanEnvelopeCounts<P, R>(bones: seq<Bone<P, R>>)
    ensures |Cones(PlanEnvelope(bones).obs)| == |bones|
    ensures |PlanEnvelope(bones).obs| == |PlanEnvelope(bones).coords| + |bones|
  {
    SpheresConesPartition(PlanEnvelope(bones).obs);
  }

  /** Each distinct joint key gets exactly one sphere. */
  lemma PlanEnvelopeOneSpherePerJoint<P, R>(bones: seq<Bone<P, R>>, key: JointKey<P, R>)
    ensures multiset(PlanEnvelope(bones).obs)[Sphere(key)] == (if key in Endpoints(bones) then 1 else 0)
  {
    var plan := PlanEnvelope(bones);
    SphereMultiplicity(plan.obs, key);
    if key in plan.coords {
      var i :| 0 <= i < |plan.coords| && plan.coords[i] == key;
      NoDuplicatesOnce(plan.coords, i);
    }
  }

  /** Two bones meeting at an exactly equal joint (tail of one, head of the other) produce one sphere there. */
  lemma SharedJointOneSphere<P, R>(bones: seq<Bone<P, R>>, i: nat, j: nat)
    requires i < |bones| && j < |bones| && bones[i].TailKey() == bones[j].HeadKey()
    ensures multiset(PlanEnvelope(bones).obs)[Sphere(bones[i].TailKey())] == 1
  {
    assert Endpoints(bones)[2 * i] == bones[i].TailKey();
    PlanEnvelopeOneSpherePerJoint(bones, bones[i].TailKey());
  }

  /** Checking one more key keeps `coords` in first-occurrence order of the keys checked. */
  lemma RequestSphereOrder<P, R>(plan: Plan<P, R>, ks: seq<JointKey<P, R>>, key: JointKey<P, R>)
    requires FirstOccurrenceOrder(plan.coords, ks)
    ensures FirstOccurrenceOrder(RequestSphere(plan, key).coords, ks + [key])
  {
    var d := RequestSphere(plan, key).coords;
    forall i | 0 <= i < |plan.coords|
      ensures FirstIndex(ks + [key], plan.coords[i]) == FirstIndex(ks, plan.coords[i])
    {
      FirstIndexAppend(ks, [key], plan.coords[i]);
    }
    if key !in plan.coords {
      assert key !in ks;
      assert FirstIndex(ks + [key], key) == |ks|;
      assert d[|d| - 1] == key;
    }
  }

  /**
   * `coords` lists the distinct joint keys in the order they are first met,
   * visiting each bone's tail before its head.
   */
  lemma {:induction false} PlanEnvelopeFirstOccurrence<P, R>(bones: seq<Bone<P, R>>)
    ensures FirstOccurrenceOrder(PlanEnvelope(bones).coords, Endpoints(bones))
  {
    if |bones| > 0 {
      var prefix := bones[..|bones| - 1];
      var last := bones[|bones| - 1];
      var ks := Endpoints(prefix);
      PlanEnvelopeFirstOccurrence(prefix);
      var afterTail := RequestSphere(PlanEnvelope(prefix), last.TailKey());
      RequestSphereOrder(PlanEnvelope(prefix), ks, last.TailKey());
      RequestSphereOrder(afterTail, ks + [last.TailKey()], last.HeadKey());
      assert ks + [last.TailKey()] + [last.HeadKey()] == Endpoints(bones);
    }
  }

  /**
   * The first request is the first bone's tail sphere.  The host joins all
   * primitives into `obs[0]`, so the envelope object takes that sphere's name.
   */
  lemma {:induction false} PlanEnvelopeStartsWithTailSphere<P, R>(bones: seq<Bone<P, R>>)
    requires |bones| > 0
    ensures |PlanEnvelope(bones).obs| > 0 && PlanEnvelope(bones).obs[0] == Sphere(bones[0].TailKey())
  {
    var prefix := bones[..|bones| - 1];
    VisitBoneRequests(PlanEnvelope(prefix), bones[|bones| - 1]);
    if |prefix| > 0 {
      PlanEnvelopeStartsWithTailSphere(prefix);
      assert prefix[0] == bones[0];
    }
  }

  /** Every bone's requests follow the earlier bones': `obs` only ever grows at the end. */
  lemma {:induction false} PlanEnvelopeExtends<P, R>(bones: seq<Bone<P, R>>, n: nat)
    requires n <= |bones|
    ensures PlanEnvelope(bones[..n]).obs <= PlanEnvelope(bones).obs
    ensures PlanEnvelope(bones[..n]).coords <= PlanEnvelope(bones).coords
  {
    if n < |bones| {
      var prefix := bones[..|bones| - 1];
      assert bones[..n] == prefix[..n];
      PlanEnvelopeExtends(prefix, n);
      VisitBoneRequests(PlanEnvelope(prefix), bones[|bones| - 1]);
    } else {
      assert bones[..n] == bones;
    }
  }
}

=== FILE: sequences.dfy ===
/** Facts about sequences of keys used by the envelope bookkeeping. */
module Sequences {

  predicate NoDuplicates<T(==)>(s: seq<T>)
  {
    forall i, j :: 0 <= i < j < |s| ==> s[i] != s[j]
  }

  /** The position of the first occurrence of `x` in `s`. */
  function FirstIndex<T(==)>(s: seq<T>, x: T): (i: nat)
    requires x in s
    ensures i < |s| && s[i] == x
    ensures forall j :: 0 <= j < i ==> s[j] != x
  {
    if s[0] == x then 0 else 1 + FirstIndex(s[1..], x)
  }

  /**
   * `d` lists every element of `s` exactly once, ordered by where each first
   * occurs in `s`.
   */
  predicate FirstOccurrenceOrder<T(==)>(d: seq<T>, s: seq<T>)
  {
    && NoDuplicates(d)
    && (forall i :: 0 <= i < |d| ==> d[i] in s)
    && (forall i :: 0 <= i < |s| ==> s[i] in d)
    && (forall i, j :: 0 <= i < j < |d| ==> FirstIndex(s, d[i]) < FirstIndex(s, d[j]))
  }

  /** Appending to a sequence does not move the first occurrence of an element already in it. */
  lemma FirstIndexAppend<T>(s: seq<T>, t: seq<T>, x: T)
    requires x in s
    ensures FirstIndex(s + t, x) == FirstIndex(s, x)
  {
    var i := FirstIndex(s, x);
    var k := FirstIndex(s + t, x);
    assert (s + t)[i] == x;
    assert k <= i;
  }

  /** An element occurring exactly once in a duplicate-free sequence. */
  lemma {:induction false} NoDuplicatesOnce<T>(s: seq<T>, i: nat)
    requires NoDuplicates(s) && i < |s|
    ensures multiset(s)[s[i]] == 1
  {
    if |s| - 1 == i {
      assert s == s[..i] + [s[i]];
      assert s[i] !in s[..i];
    } else {
      var prefix := s[..|s| - 1];
      NoDuplicatesOnce(prefix, i);
      assert s == prefix + [s[|s| - 1]];
    }
  }
}

=== FILE: skin_graph.dfy ===
/**
 * `convert_skin`: the vertex / edge / radius lists handed to the skin modifier.
 * Every bone contributes its own two vertices (head, then tail) and one edge
 * between them; coincident joints of neighbouring bones are not merged here.
 */
module SkinGraph {
  import opened Armature

  /** An edge as an index pair `(i, j)` into the vertex list, in the order it is written. */
  datatype Edge = Edge(a: nat, b: nat)

  /** The three parallel lists `convert_skin` returns. */
  datatype Graph<P, R> = Graph(verts: seq<P>, edges: seq<Edge>, radii: seq<R>)

  predicate EdgeInRange(e: Edge, n: nat)
  {
    e.a < n && e.b < n
  }

  predicate IsLoop(e: Edge)
  {
    e.a == e.b
  }

  /** Radii aligned one-to-one with vertices, every edge between two distinct existing vertices. */
  predicate WellFormed<P, R>(g: Graph<P, R>)
  {
    && |g.radii| == |g.verts|
    && (forall e :: e in g.edges ==> EdgeInRange(e, |g.verts|) && !IsLoop(e))
  }

  /** Builds the graph the way the source's loop does: append head, tail, their radii, then edge (last, last - 1). */
  function ConvertSkin<P, R>(bones: seq<Bone<P, R>>): (g: Graph<P, R>)
    ensures |g.verts| == 2 * |bones| && |g.radii| == 2 * |bones| && |g.edges| == |bones|
    ensures forall k :: 0 <= k < |bones| ==>
              && g.verts[2 * k] == bones[k].head && g.verts[2 * k + 1] == bones[k].tail
              && g.radii[2 * k] == bones[k].headRadius && g.radii[2 * k + 1] == bones[k].tailRadius
    ensures forall k :: 0 <= k < |bones| ==> g.edges[k] == Edge(2 * k + 1, 2 * k)
  {
    if |bones| == 0 then Graph([], [], [])
    else
      var g := ConvertSkin(bones[..|bones| - 1]);
      var b := bones[|bones| - 1];
      var verts := g.verts + [b.head, b.tail];
      Graph(verts, g.edges + [Edge(|verts| - 1, |verts| - 2)], g.radii + [b.headRadius, b.tailRadius])
  }

  /** Reads the bones back out of a graph: vertex pair k and radius pair k form bone k. */
  function BonesOf<P, R>(g: Graph<P, R>): (bones: seq<Bone<P, R>>)
    requires |g.radii| == |g.verts|
    ensures |bones| == |g.verts| / 2
  {
    seq(|g.verts| / 2, k requires 0 <= k < |g.verts| / 2 =>
      Bone(g.verts[2 * k], g.verts[2 * k + 1], g.radii[2 * k], g.radii[2 * k + 1]))
  }

  /** The graph is well formed: every edge index is below the vertex count and no edge is a self-loop. */
  lemma ConvertSkinWellFormed<P, R>(bones: seq<Bone<P, R>>)
    ensures WellFormed(ConvertSkin(bones))
  {
    var g := ConvertSkin(bones);
    forall e | e in g.edges
      ensures EdgeInRange(e, |g.verts|) && !IsLoop(e)
    {
      var k :| 0 <= k < |g.edges| && g.edges[k] == e;
    }
  }

  /** No bone is lost or altered: the bones can be read back from the graph. */
  lemma ConvertSkinRoundTrip<P, R>(bones: seq<Bone<P, R>>)
    ensures BonesOf(ConvertSkin(bones)) == bones
  {
  }
}

=== FILE: skin_mesh.dfy ===
/**
 * The skin branch of the convert operator after `convert_skin`: the edge list
 * is fed to bmesh one request at a time, and the radius list is written into
 * the mesh's skin-vertex layer.
 */
module SkinMesh {
  import opened Wrappers
  import opened Armature
  import opened SkinGraph

  /** bmesh identifies an edge by its two vertices, whichever way round they are given. */
  predicate SameEdge(e: Edge, f: Edge)
  {
    (e.a == f.a && e.b == f.b) || (e.a == f.b && e.b == f.a)
  }

  /** Some edge of `es` joins the two vertices of `e`. */
  predicate Connects(es: seq<Edge>, e: Edge)
  {
    exists i :: 0 <= i < |es| && SameEdge(es[i], e)
  }

  lemma ConnectsAppend(es: seq<Edge>, e: Edge)
    ensures Connects(es + [e], e)
    ensures forall f :: Connects(es, f) ==> Connects(es + [e], f)
  {
    assert SameEdge((es + [e])[|es|], e);
    forall f | Connects(es, f)
      ensures Connects(es + [e], f)
    {
      var j :| 0 <= j < |es| && SameEdge(es[j], f);
      assert SameEdge((es + [e])[j], f);
    }
  }

  /**
   * The created edges join the same vertex pairs as the non-loop requests seen
   * so far, so asking bmesh and asking the request history agree.
   */
  lemma ConnectsSameSet(created: seq<Edge>, seen: seq<Edge>, e: Edge)
    requires forall f :: f in created ==> f in seen
    requires forall k :: 0 <= k < |seen| && !IsLoop(seen[k]) ==> Connects(created, seen[k])
    requires !IsLoop(e)
    ensures Connects(created, e) <==> Connects(seen, e)
  {
    if Connects(created, e) {
      var j :| 0 <= j < |created| && SameEdge(created[j], e);
      assert created[j] in created;
      var k :| 0 <= k < |seen| && seen[k] == created[j];
      assert SameEdge(seen[k], e);
    }
    if Connects(seen, e) {
      var k :| 0 <= k < |seen| && SameEdge(seen[k], e);
      assert !IsLoop(seen[k]);
      var j :| 0 <= j < |created| && SameEdge(created[j], seen[k]);
      assert SameEdge(created[j], e);
    }
  }

  /** What bmesh can hold: no self-loop and no two edges between the same vertices. */
  predicate EdgeSet(es: seq<Edge>)
  {
    && (forall i :: 0 <= i < |es| ==> !IsLoop(es[i]))
    && (forall i, j :: 0 <= i < j < |es| ==> !SameEdge(es[i], es[j]))
  }

  /**
   * The requests bmesh accepts, in request order: those that are not a
   * self-loop and do not join the same two vertices as an earlier request.
   */
  function FirstRequests(rs: seq<Edge>): seq<Edge>
  {
    if |rs| == 0 then []
    else
      var k := |rs| - 1;
      FirstRequests(rs[..k]) + (if IsLoop(rs[k]) || Connects(rs[..k], rs[k]) then [] else [rs[k]])
  }

  /** `bm.verts[i]` raised IndexError on the request at this position; nothing catches it. */
  datatype EdgeError = IndexOutOfRange(request: nat)

  /**
   * The edge loop of lines 305-309, which creates one bmesh edge per request
   * and swallows bmesh's ValueError, over a mesh of `vertCount` vertices.  A request repeating an existing
   * edge (either way round) or naming one vertex twice makes bmesh raise
   * ValueError and is skipped; an index past the vertex list raises IndexError,
   * which aborts the operator.
   */
  method AddEdges(vertCount: nat, requests: seq<Edge>) returns (r: Result<seq<Edge>, EdgeError>)
    ensures r.Failure? <==> exists k :: 0 <= k < |requests| && !EdgeInRange(requests[k], vertCount)
    ensures r.Failure? ==>
              && r.error.request < |requests|
              && !EdgeInRange(requests[r.error.request], vertCount)
              && forall k :: 0 <= k < r.error.request ==> EdgeInRange(requests[k], vertCount)
    ensures r.Success? ==>
              && EdgeSet(r.value)
              && |r.value| <= |requests|
              && (forall e :: e in r.value ==> e in requests && EdgeInRange(e, vertCount))
              && (forall k :: 0 <= k < |requests| && !IsLoop(requests[k]) ==> Connects(r.value, requests[k]))
    ensures r.Success? ==> r.value == FirstRequests(requests)
    ensures r.Success? && EdgeSet(requests) ==> r.value == requests
  {
    var created: seq<Edge> := [];
    var i := 0;
    while i < |requests|
      invariant 0 <= i <= |requests|
      invariant forall k :: 0 <= k < i ==> EdgeInRange(requests[k], vertCount)
      invariant created == FirstRequests(requests[..i])
    {
      var e := requests[i];
      if !EdgeInRange(e, vertCount) {
        return Failure(IndexOutOfRange(i));
      }
      assert requests[..i + 1][..i] == requests[..i];
      if !IsLoop(e) {
        FirstRequestsSubset(requests[..i]);
        FirstRequestsCovers(requests[..i]);
        ConnectsSameSet(created, requests[..i], e);
      }
      if !IsLoop(e) && !Connects(created, e) {
        created := created + [e];
      }
      i := i + 1;
    }
    assert requests[..i] == requests;
    FirstRequestsSubset(requests);
    FirstRequestsCovers(requests);
    FirstRequestsEdgeSet(requests);
    if EdgeSet(requests) {
      FirstRequestsOfEdgeSet(requests);
    }
    forall e | e in created
      ensures EdgeInRange(e, vertCount)
    {
      var k :| 0 <= k < |requests| && requests[k] == e;
    }
    return Success(created);
  }

  /** Appending an edge that is no loop and joins no existing pair keeps an edge set. */
  lemma EdgeSetAppend(es: seq<Edge>, e: Edge)
    requires EdgeSet(es) && !IsLoop(e) && !Connects(es, e)
    ensures EdgeSet(es + [e])
  {
    var t := es + [e];
    forall i, j | 0 <= i < j < |t|
      ensures !SameEdge(t[i], t[j])
    {
      if j == |es| {
        assert t[i] == es[i] && t[j] == e;
      } else {
        assert t[i] == es[i] && t[j] == es[j];
      }
    }
  }

  /** The accepted requests are requests, and no more of them than were made. */
  lemma {:induction false} FirstRequestsSubset(rs: seq<Edge>)
    ensures |FirstRequests(rs)| <= |rs|
    ensures forall e :: e in FirstRequests(rs) ==> e in rs
  {
    if |rs| > 0 {
      var k := |rs| - 1;
      FirstRequestsSubset(rs[..k]);
      assert rs == rs[..k] + [rs[k]];
    }
  }

  /** Every non-loop request joins a pair that some accepted request joins. */
  lemma {:induction false} FirstRequestsCovers(rs: seq<Edge>)
    ensures forall k :: 0 <= k < |rs| && !IsLoop(rs[k]) ==> Connects(FirstRequests(rs), rs[k])
  {
    if |rs| > 0 {
      var k := |rs| - 1;
      var p := FirstRequests(rs[..k]);
      var e := rs[k];
      FirstRequestsCovers(rs[..k]);
      FirstRequestsSubset(rs[..k]);
      var f := FirstRequests(rs);
      if IsLoop(e) || Connects(rs[..k], e) {
        assert f == p;
        if !IsLoop(e) {
          ConnectsSameSet(p, rs[..k], e);
        }
      } else {
        assert f == p + [e];
        ConnectsAppend(p, e);
      }
      forall k' | 0 <= k' < |rs| && !IsLoop(rs[k'])
        ensures Connects(f, rs[k'])
      {
        if k' < k {
          assert rs[..k][k'] == rs[k'];
        }
      }
    }
  }

  /** The accepted requests form an edge set. */
  lemma {:induction false} FirstRequestsEdgeSet(rs: seq<Edge>)
    ensures EdgeSet(FirstRequests(rs))
  {
    if |rs| > 0 {
      var k := |rs| - 1;
      var p := FirstRequests(rs[..k]);
      var e := rs[k];
      FirstRequestsEdgeSet(rs[..k]);
      if !IsLoop(e) && !Connects(rs[..k], e) {
        FirstRequestsSubset(rs[..k]);
        FirstRequestsCovers(rs[..k]);
        ConnectsSameSet(p, rs[..k], e);
        EdgeSetAppend(p, e);
      }
    }
  }

  /** A request list that is already an edge set is accepted whole. */
  lemma {:induction false} FirstRequestsOfEdgeSet(rs: seq<Edge>)
    requires EdgeSet(rs)
    ensures FirstRequests(rs) == rs
  {
    if |rs| > 0 {
      var k := |rs| - 1;
      var e := rs[k];
      assert EdgeSet(rs[..k]) by {
        forall i | 0 <= i < k ensures !IsLoop(rs[..k][i]) {
          assert rs[..k][i] == rs[i];
        }
        forall i, j | 0 <= i < j < k ensures !SameEdge(rs[..k][i], rs[..k][j]) {
          assert rs[..k][i] == rs[i] && rs[..k][j] == rs[j];
        }
      }
      FirstRequestsOfEdgeSet(rs[..k]);
      assert rs == rs[..k] + [e];
    }
  }

  /** The edges `convert_skin` emits never trip either ValueError, so none is skipped. */
  lemma ConvertSkinEdgeSet<P, R>(bones: seq<Bone<P, R>>)
    ensures EdgeSet(ConvertSkin(bones).edges)
    ensures forall e :: e in ConvertSkin(bones).edges ==> EdgeInRange(e, |ConvertSkin(bones).verts|)
  {
    ConvertSkinWellFormed(bones);
  }

  /**
   * The radius write-back: walks the whole radius list with a counter and
   * writes entry `i` only while `i` is below the layer's length.
   */
  method WriteRadii<R>(layer: seq<(R, R)>, radius: seq<R>) returns (written: seq<(R, R)>)
    ensures |written| == |layer|
    ensures forall i :: 0 <= i < |layer| && i < |radius| ==> written[i] == (radius[i], radius[i])
    ensures forall i :: |radius| <= i < |layer| ==> written[i] == layer[i]
  {
    written := layer;
    var i := 0;
    while i < |radius|
      invariant 0 <= i <= |radius|
      invariant |written| == |layer|
      invariant forall j :: 0 <= j < |layer| && j < i ==> written[j] == (radius[j], radius[j])
      invariant forall j :: i <= j < |layer| ==> written[j] == layer[j]
    {
      if i < |written| {
        written := written[i := (radius[i], radius[i])];
      }
      i := i + 1;
    }
  }

  /** `AddEdges` on requests bmesh accepts whole: nothing fails and nothing is skipped. */
  method AddAllEdges(vertCount: nat, requests: seq<Edge>) returns (created: seq<Edge>)
    requires EdgeSet(requests)
    requires forall e :: e in requests ==> EdgeInRange(e, vertCount)
    ensures created == requests
  {
    var r := AddEdges(vertCount, requests);
    assert forall k :: 0 <= k < |requests| ==> requests[k] in requests;
    created := r.value;
  }

  /** The mesh the skin branch hands to the host: vertices, created edges, skin-vertex radii. */
  datatype SkinMeshData<P, R> = SkinMeshData(verts: seq<P>, edges: seq<Edge>, skinRadii: seq<(R, R)>)

  /**
   * Lines 296-313 and 347-358 together: build the graph, create its edges, then
   * write the radii into a fresh skin layer whose entries all start at `initial`.
   */
  method BuildSkinMesh<P, R>(bones: seq<Bone<P, R>>, initial: R) returns (r: Result<SkinMeshData<P, R>, EdgeError>)
    ensures r.Success?
    ensures |r.value.verts| == 2 * |bones| && |r.value.edges| == |bones| && |r.value.skinRadii| == 2 * |bones|
    ensures forall k :: 0 <= k < |bones| ==>
              && r.value.verts[2 * k] == bones[k].head && r.value.verts[2 * k + 1] == bones[k].tail
              && r.value.edges[k] == Edge(2 * k + 1, 2 * k)
              && r.value.skinRadii[2 * k] == (bones[k].headRadius, bones[k].headRadius)
              && r.value.skinRadii[2 * k + 1] == (bones[k].tailRadius, bones[k].tailRadius)
  {
    var g := ConvertSkin(bones);
    ConvertSkinEdgeSet(bones);
    var edges := AddAllEdges(|g.verts|, g.edges);
    var layer := seq(|g.verts|, _ => (initial, initial));
    var skinRadii := WriteRadii(layer, g.radii);
    r := Success(SkinMeshData(g.verts, edges, skinRadii));
  }
}

=== FILE: wrappers.dfy ===
/** Failure-carrying result used where the add-on lets a host exception escape. */
module Wrappers {

  datatype Result<+T, +E> = Success(value: T) | Failure(error: E)
}
